=== FILE: README.md ===
# Lobby state machine of the doodle game server

The server in `index.js` runs multiplayer drawing-and-guessing games. Each
game is a lobby. Players join a lobby, one of them is the drawer, the
drawer picks a secret word, the others guess in the chat, and a countdown
hands the turn to the next player.

All of that state sits in one in-memory registry: a plain object that maps
lobby ids to records `{players, currentDrawer, roundTime, chosenWord,
timer}`. The socket event handlers change the registry, and so do the
callbacks of the timers the server starts. This project models the registry
as a pure state machine and proves properties of it.

- `Lobbies` (`lobbies.dfy`): players, lobby records, the record a first join creates, and the broadcast messages with their targets (everyone, a room, a room except the sender).
- `Text` (`text.dfy`): ASCII lower-casing and the guess comparison.
- `Rotation` (`rotation.dfy`): `findIndex` and the choice of the next drawer, plus the full-cycle property.
- `Rounds` (`rounds.dfy`): `startRound`, `nextTurn`, one second of the stored round interval, and one second of an interval created by `startTimer`. Also the countdown lemmas: a round lasts exactly 120 seconds of the stored interval.
- `Registry` (`registry.dfy`):
  - The world: the registry, the order in which lobby ids were created, the live `startTimer` intervals, the pending delayed `nextTurn` calls, and the connections that have disconnected. A closed connection delivers no further events, and its id is never handed out again.
  - The handlers for `join-lobby`, `choose-word`, `disconnect`, `start-drawing`/`drawing` and `send-message`, and the three timer firings.
  - `Step`, which dispatches one event to its handler.
- `Properties` (`properties.dfy`): the world invariant and its preservation, drawers and lobbies that are never lost, locality, and the join, disconnect and guess guarantees.
- `Sessions` (`sessions.dfy`): what closed connections imply. A connected drawer is always listed and always has a live stored interval, so `choose-word` never reaches `startTimer`.
- `Scenarios` (`scenarios.dfy`): complete runs from an empty server, driven through `Step`; the quiet seconds of a countdown are taken at once with `RunTimer`.

The timers are events. `Tick(lobby)` is a firing of the stored interval,
allowed only while the record's handle is set. `LegacyTick(lobby)` is a
firing of one interval started by `startTimer`. Those intervals keep no
handle, so the world counts them in a multiset. `DelayedNextTurn(lobby)` is
the seven-second `setTimeout` scheduled by a win; pending ones are also
counted in a multiset. Because of this, evaluating a guess leaves every
lobby record unchanged.

Behaviour kept as the code has it:

- A join under a username that is already present adds no entry. As the code reads, the joining connection would still become drawer when the lobby has none. No run gets there: a lobby is created empty and given a drawer on that same join, and in every reachable world a lobby without a drawer is empty (`Sessions.NoStartTimerInAnyRun`).
- The chat handler has no guard for an empty word, so while no word is chosen the empty message wins (`EmptyGuessWinsBeforeWordChosen`).
- `disconnect` never clears or reassigns the drawer.
- `send-message` ignores the lobby id `""` even when a lobby under that id exists (`!lobbyId`).
- When no stored handle is set, `choose-word` starts an extra countdown, which would run beside any later stored interval and take two seconds per second off the clock (`DoubleCountdown`). No run of the server gets there. The handle is unset only after the clock ran out in a lobby with no players. Then the drawer's entries are gone, so the drawer has disconnected, and a closed connection sends nothing more. `Sessions.NoStartTimerInAnyRun` proves that from start-up no `startTimer` interval ever exists.
- Once every player has left and the clock has run out, later joins start no round (`IdleLobbyStaysIdleOnJoin`). Only a winning guess restarts the lobby, through its delayed `nextTurn`. While no word is chosen, the empty message is such a guess (`WinRestartsIdleLobby`).
- A full cycle of rotations is guaranteed to return to the drawer only when connection ids are distinct. One connection may join twice under two usernames, and with such a repeated connection the cycle can fail (`RepeatedConnectionBreaksCycle`).

## Model

| member | source | states |
|---|---|---|
| Text.Lower | index.js:131 | lower-casing keeps the length and folds each character on its own, A-Z to a-z |
| Text.Matches | index.js:131 | a winning guess has exactly the word's length, the word itself always wins, and with an empty word only the empty guess wins |
| Text.MatchesIffSameLetters | index.js:131 | a guess matches iff it has the word's length and agrees with it character by character up to ASCII case, in both directions |
| Text.EmptyWordMatchesOnlyEmptyGuess | index.js:131 | with an empty stored word exactly the empty guess matches (no empty-word guard) |
| Text.MatchExamples | index.js:131 | "apple" matches "Apple", "Apple " does not (no trimming), "CAT" matches "cat" |
| Rotation.FindIndex | index.js:210 | the result is the first position holding the drawer's connection, and -1 only when no entry holds it |
| Rotation.NextIndex | index.js:211 | the next position is always a valid index of the non-empty player list |
| Rotation.NextDrawer | index.js:214 | the next drawer is always one of the players |
| Rotation.NextAfterFirstOccurrence | index.js:210-214 | from the first entry of the drawer at position i the turn goes to i+1, or wraps to 0 from the last position |
| Rotation.NextWhenAbsent | index.js:210-214 | a drawer that is null or no longer listed hands the turn to the first player (findIndex gives -1) |
| Rotation.RotateWalk | index.js:210-214 | over distinct connections, k rotations from position i reach position i+k when no wrap happens |
| Rotation.RotateFullCycleAt | index.js:210-214 | over distinct connections, as many rotations as there are players lead from a position back to it |
| Rotation.RotateFullCycle | index.js:210-214 | with the player list fixed, its connection ids distinct and the drawer among them, n rotations give the turn back to the drawer |
| Rotation.RepeatedConnectionBreaksCycle | index.js:68-71 | one connection joined under two usernames occupies two entries, and the full cycle can then fail, as in this three-entry example where three rotations from the connection end at Bob |
| Rounds.StartRound | index.js:174-200 | no-op in an empty lobby; otherwise players and drawer are kept, the clock is 120, the word is empty, one stored interval is live, and the drawer is announced |
| Rounds.NextTurn | index.js:206-216 | no-op without players; otherwise the new drawer is a player, it is the rotation successor, and a fresh round is announced for it |
| Rounds.TimerTick | index.js:190-199 | the clock drops by one and is broadcast, and nothing else happens before expiry; at zero or below the stored handle is cleared, and the turn passes to the next player with a start-round broadcast, or in an empty lobby nothing more is broadcast |
| Rounds.LegacyTimerTick | index.js:45-53 | same countdown without touching the stored handle; at zero the turn passes to the next player with a start-round broadcast, or in an empty lobby nothing more is broadcast |
| Rounds.TicksBeforeExpiry | index.js:190-193 | k seconds of the stored interval before expiry lower the clock by exactly k and broadcast the values from roundTime-1 down to roundTime-k |
| Rounds.TimerExpiresAfterRoundTime | index.js:190-199 | a clock at t runs out after exactly t seconds, broadcasting t-1 down to 0, then rotates and restarts; in an emptied lobby it stops the stored interval |
| Rounds.RoundLastsRoundSeconds | index.js:177-199 | a round started by startRound keeps its drawer for 119 seconds and hands the turn on at the 120th |
| Rounds.DoubleCountdown | index.js:42-54 | if a startTimer interval ran beside the stored one, the clock would drop by two per second (no run gets there, see Sessions.NoStartTimerInAnyRun) |
| Registry.OnJoin | index.js:60-82 | creates a missing lobby, appends the player only under a new username, makes the joiner drawer and starts a round only when there is no drawer, and leaves every other lobby as it was |
| Registry.OnChooseWord | index.js:84-95 | nothing changes unless the lobby exists and the sender is its drawer; on success the word is stored, its length is broadcast, and without a stored handle the clock resets and one untracked interval is added |
| Registry.RemoveConn | index.js:100 | no remaining entry belongs to the disconnecting connection, and the list does not grow |
| Registry.RemoveConnContents | index.js:100 | exactly the entries of the connection are removed; every other entry stays with its multiplicity |
| Registry.RemoveConnConcat | index.js:100 | removal distributes over concatenation, so the remaining entries keep their relative order |
| Registry.RemoveAbsentConn | index.js:100 | a list without entries of the connection is unchanged |
| Registry.RemoveConnKeepsUsernamesUnique | index.js:100 | removing entries keeps usernames unique |
| Registry.OnDisconnect | index.js:97-103 | every lobby loses exactly that connection's entries; drawer, word, clock, timers and the set of lobby ids are unchanged; one update-players per lobby, in creation order |
| Registry.Relay | index.js:106-114 | a stroke is relayed to the rest of the room iff the sender is the current drawer |
| Registry.OnMessage | index.js:117-142 | ignored for a missing or empty lobby id; otherwise chat goes to everyone and to the room, a match announces the winner with the stored word and schedules one delayed turn, and no lobby record changes |
| Registry.OnTick | index.js:190-199 | a firing of the stored interval leaves every other lobby and all scheduled callbacks alone; in its lobby the clock drops by one and is broadcast, and at expiry the handle is cleared and the turn rotates to the next player with a fresh round, or in an empty lobby stops |
| Registry.OnLegacyTick | index.js:45-53 | a firing of a startTimer interval leaves every other lobby alone, counts its lobby down with a broadcast, and at expiry removes exactly that one interval and rotates the turn with a fresh round |
| Registry.OnDelayedNextTurn | index.js:138-140 | the delayed call consumes exactly one pending turn of its lobby, leaves every other lobby alone, does nothing in an empty lobby, and otherwise hands the turn to the next player with a fresh round and a start-round broadcast |
| Properties.JoinAppendsNewUsernameOnly | index.js:67-71 | earlier entries stay in place, the joiner is appended iff the username is new, and usernames stay unique |
| Properties.JoinCreatesLobby | index.js:63-77 | the first join creates the lobby with the joiner as only player and drawer, a full clock and an empty word, and announces the round |
| Properties.RejoinSameUsername | index.js:67-77 | a second join under a present username adds no entry but, as the code reads, still assigns a missing drawer (no run reaches a drawerless lobby with players, see Sessions.NoStartTimerInAnyRun) |
| Properties.IdleLobbyStaysIdleOnJoin | index.js:74-80 | a lobby with a drawer and no stored interval starts no round on a join |
| Properties.DisconnectSparesOtherLobbies | index.js:99-102 | lobbies without the connection are left exactly as they were |
| Properties.EmptyGuessWinsBeforeWordChosen | index.js:131-140 | while the word is empty, the empty message is announced as a win with the empty word and schedules a turn |
| Properties.GuessWinsIff | index.js:118-141 | in an existing lobby the winner announcement happens iff the guess equals the word up to ASCII case; lobby records never change |
| Properties.JoinKeepsOrder | index.js:63-65 | a join appends a new lobby id at the end of the creation order, leaves the order unchanged for an existing id, and keeps every id listed once |
| Properties.JoinKeepsUsernamesUnique | index.js:67-71 | after any join no lobby lists a username twice |
| Properties.JoinPreservesValid | index.js:60-82 | join-lobby keeps the world invariant |
| Properties.DisconnectPreservesValid | index.js:97-103 | disconnect keeps the world invariant |
| Properties.ChooseWordPreservesValid | index.js:84-95 | choose-word keeps the world invariant |
| Properties.MessagePreservesValid | index.js:117-142 | send-message keeps the world invariant |
| Properties.TickPreservesValid | index.js:190-199 | a stored-interval firing keeps the world invariant |
| Properties.LegacyTickPreservesValid | index.js:45-53 | a startTimer firing keeps the world invariant |
| Properties.DelayedNextTurnPreservesValid | index.js:138-140 | the delayed turn keeps the world invariant |
| Properties.StepPreservesValid | index.js:60-142 | every transition keeps creation order, registered callbacks and unique usernames |
| Properties.StepKeepsLobbies | index.js:63-65 | lobbies are never removed, and only a join adds one |
| Properties.HandlersSetDrawerOnlyOnJoin | index.js:74-77 | outside timer firings a drawer changes only by a join into a lobby without one |
| Properties.TimersRotateToPlayer | index.js:194-215 | timer firings and the delayed turn keep the drawer or replace it by a player |
| Properties.StepKeepsDrawer | index.js:74-77 | once set, no transition sets a drawer back to null |
| Properties.StepIsLocal | index.js:60-142 | an event addressed to one lobby changes no other lobby |
| Properties.DrawerChangesOnlyByJoinOrRotation | index.js:206-215 | the drawer changes only by a join into a drawerless lobby or by a rotation, and a rotated-to drawer is a player |
| Sessions.ChooseWordStartsNoTimer | index.js:86-93 | in a sound world a connected drawer's choose-word finds the stored handle set, so it only stores the word and starts no startTimer interval |
| Sessions.LegacyTickNeverEnabled | index.js:42-54 | in a sound world no startTimer interval exists to fire |
| Sessions.JoinKeepsSound | index.js:60-82 | a join from an open connection keeps every lobby sound: no closed connection listed, a drawerless lobby empty, a connected drawer listed with a live stored interval |
| Sessions.RemoveConnKeepsOnlyEntries | index.js:100 | every entry left by the filter was an entry before |
| Sessions.RemoveConnKeepsOthers | index.js:100 | every entry of another connection survives the filter |
| Sessions.RemoveConnKeepsSound | index.js:97-102 | dropping a disconnecting connection's entries keeps a lobby sound once that connection counts as closed |
| Sessions.DisconnectKeepsSound | index.js:97-103 | disconnect keeps every lobby sound |
| Sessions.TickKeepsSound | index.js:190-199 | a stored-interval firing keeps the world sound: at expiry either the turn rotates to a listed player with a fresh interval, or the lobby is empty and its drawer is closed |
| Sessions.DelayedNextTurnKeepsSound | index.js:138-140 | the delayed turn keeps the world sound |
| Sessions.StepKeepsSound | index.js:60-142 | every deliverable event keeps the world sound |
| Sessions.RunKeepsSound | index.js:57-142 | every world a sequence of deliverable events reaches from a sound world is sound |
| Sessions.NoStartTimerInAnyRun | index.js:91-92 | every world reached from start-up is sound: no startTimer interval ever runs, and a lobby without a drawer is empty |
| Sessions.OnlyDisconnectCloses | index.js:97-103 | only disconnect closes a connection, and it closes exactly its own |
| Scenarios.AnnOpensLobby | index.js:60-82 | the first joiner of L1 becomes drawer, start-round names them, and the clock starts at 120 |
| Scenarios.BobJoins | index.js:67-80 | a second player is appended and the drawer keeps the turn |
| Scenarios.AnnChoosesCat | index.js:84-93 | the drawer's word is stored and its length 3 is broadcast |
| Scenarios.BobWinsWithCat | index.js:131-140 | "CAT" wins against "cat", and the announcement carries "cat" |
| Scenarios.DelayedTurnGoesToBob | index.js:138-140 | the delayed turn after the win passes the drawing to the next player with a fresh round |
| Scenarios.DrawerLeavesMidRound | index.js:97-102 | the drawer's disconnect removes the entry but keeps drawer, clock and stored interval |
| Scenarios.WinRestartsIdleLobby | index.js:131-140 | in a lobby idle after its clock ran out with nobody left, a joiner's empty message wins and the delayed turn hands them the drawing with a fresh round |
| Scenarios.RoundAfterDrawerLeftRotates | index.js:190-211 | that clock counts down to one second with the departed drawer kept; the last stored-interval firing, through `Step`, passes the turn to the first remaining player and announces the round |

## Left out

- The HTTP lobby endpoints and the database model (`controller/gameController.js`, `models/lobbyModel.js`, `router/gameRouter.js`): they only read and write database records. The same goes for the Express, mongoose, dotenv and CORS setup and `server.listen` (index.js:1-36, index.js:218-222).
- Transport details are left out: room membership (`socket.join`), the fan-out done by the transport, and `fetchSockets`. A broadcast is an output tagged with its target.
- Wall-clock timing is left out. Interval and timeout firings are explicit events, and any interleaving of them with socket events is allowed.
- Connection ids are plain numbers. The transport creates them and the server only compares them.
- Drawing coordinates are integers. The server relays them without looking at them.
- Only ASCII A-Z is lower-cased; other characters are not. The word length counts characters, where JavaScript counts UTF-16 code units.
- `disconnect` visits lobbies in creation order. JavaScript lists keys that look like array indices first, in numeric order; only the order of the per-lobby `update-players` broadcasts depends on this.
- Paths where the server would throw are preconditions. `start-drawing` and `drawing` require an existing lobby, and timer firings require a live timer.
- Payloads of the wrong type (a missing `text` or `word`) are not modelled.
- Lobby ids that name properties every JavaScript object inherits (`"constructor"`, `"toString"`, `"__proto__"`, ...) are treated like any other id. In the code `lobbies[lobbyId]` is truthy for them before any lobby exists. Then `join-lobby` skips creation and throws at index.js:68, and `send-message` sends both chat broadcasts and throws at index.js:131. The model creates the lobby on join and ignores the message.
- `startRound` returns early for a missing lobby. The model passes the lobby record to `StartRound`, and every caller has one.
- The commented-out `startRound` (index.js:149-172) and all logging are left out.
- Closed connections rest on the transport's behaviour, which is outside `index.js`. The server options (index.js:17-22) turn on no connection-state recovery, so a closed connection delivers nothing more and its id is not reused. The model records closed connections and does not deliver their socket events.
- `send-message` carries no connection in the model; its sender is the username in the payload. So a message counts as deliverable whichever connection sends it. It changes no lobby record.
- Registry.Step has no contract of its own. It only dispatches, and its properties are the lemmas of `Properties`.

=== FILE: lobbies.dfy ===
/**
  The records of the in-memory lobby registry of the drawing game server and
  the messages it broadcasts.
 */
module Lobbies {
  import opened Options

  /** Lobby ids are whatever string a client sends with `join-lobby`. */
  type LobbyId = string

  /** A socket connection id. The transport assigns them and the server only
      compares them, so they are modelled as plain numbers; `null` is `None`
      in an `Option<ConnId>`. */
  type ConnId = nat

  /** Seconds on the clock at the start of every round. */
  const RoundSeconds: int := 120

  datatype Player = Player(id: ConnId, username: string)

  /** One lobby record. `timerLive` says whether the handle of the stored
      round interval is set (the source keeps the handle itself in the record). */
  datatype Lobby = Lobby(
    players: seq<Player>,
    drawer: Option<ConnId>,
    roundTime: int,
    chosenWord: string,
    timerLive: bool)

  /** The record created by the first join of an unseen lobby id: no players,
      no drawer, a full clock, no word and no stored interval. */
  const NewLobby: Lobby := Lobby([], None, RoundSeconds, "", false)

  /** Who receives a broadcast: every connection, the lobby's room, or the
      lobby's room except the sending connection. */
  datatype Target = Everyone | Room(lobby: LobbyId) | RoomExcept(lobby: LobbyId, sender: ConnId)

  /** The emitted events: `update-players`, `start-round`, `update-timer`,
      `word-chosen`, `receive-message`, `winner-announced` and the relayed
      `start-drawing` / `drawing` strokes. */
  datatype Payload =
    | PlayersUpdate(players: seq<Player>)
    | RoundStart(drawer: Option<ConnId>)
    | TimerUpdate(seconds: int)
    | WordChosen(wordLength: nat)
    | Message(text: string, sender: string)
    | WinnerAnnouncement(winner: string, word: string)
    | RelayStartDrawing(x: int, y: int)
    | RelayDrawing(x: int, y: int)

  datatype Output = Emit(to: Target, payload: Payload)

  /** A lobby after a transition, with what the transition broadcast. */
  datatype LobbyStep = LobbyStep(lobby: Lobby, out: seq<Output>)

  predicate HasUsername(players: seq<Player>, name: string) {
    exists i :: 0 <= i < |players| && players[i].username == name
  }

  predicate IsPlayer(players: seq<Player>, c: ConnId) {
    exists i :: 0 <= i < |players| && players[i].id == c
  }

  ghost predicate UniqueUsernames(players: seq<Player>) {
    forall i, j :: 0 <= i < j < |players| ==> players[i].username != players[j].username
  }

  /** The connection of the entry at position `i`. */
  function IdAt(players: seq<Player>, i: nat): ConnId
    requires i < |players|
  {
    players[i].id
  }

  /** No connection has two entries. Stated through `IdAt` so that the
      quantifier is only used where a proof asks for it. */
  ghost predicate DistinctIds(players: seq<Player>) {
    forall i: nat, j: nat :: i < j < |players| ==> IdAt(players, i) != IdAt(players, j)
  }
}

=== FILE: options.dfy ===
/** The optional value used for a lobby's drawer, which starts out as `null`. */
module Options {

  datatype Option<+T> = None | Some(value: T)
}

=== FILE: properties.dfy ===
/**
  Properties of the whole server that relate its handlers: the world
  invariant, lobbies and drawers that are never lost, locality of events,
  and the join, disconnect and guess guarantees.
 */
module Properties {
  import opened Options
  import opened Text
  import opened Lobbies
  import opened Rounds
  import opened Registry

  /** The lobby an event is addressed to; `disconnect` addresses none. */
  function EventLobby(e: Event): Option<LobbyId> {
    match e
    case JoinLobby(id, _, _) => Some(id)
    case ChooseWord(id, _, _) => Some(id)
    case Disconnect(_) => None
    case StartDrawing(id, _, _, _) => Some(id)
    case Drawing(id, _, _, _) => Some(id)
    case SendMessage(id, _, _) => Some(id)
    case Tick(id) => Some(id)
    case LegacyTick(id) => Some(id)
    case DelayedNextTurn(id) => Some(id)
  }

  /** A join keeps the earlier entries in place, adds the joining player at
      the end exactly when the username is new, and so never lets two
      entries share a username. */
  lemma JoinAppendsNewUsernameOnly(w: World, id: LobbyId, conn: ConnId, name: string)
    requires UniqueUsernames(LobbyOrNew(w, id).players)
    ensures var before := LobbyOrNew(w, id).players;
      var after := OnJoin(w, id, conn, name).world.lobbies[id].players;
      && UniqueUsernames(after)
      && HasUsername(after, name)
      && after[..|before|] == before
      && (HasUsername(before, name) <==> after == before)
      && (!HasUsername(before, name) <==> after == before + [Player(conn, name)])
  {
    var before := LobbyOrNew(w, id).players;
    var after := OnJoin(w, id, conn, name).world.lobbies[id].players;
    if !HasUsername(before, name) {
      assert after[|before|].username == name;
      assert after != before;
    }
  }

  /** The first join of an unseen lobby id creates the lobby with the joining
      player as its only member and drawer, in a freshly started round, and
      registers the id last in creation order. */
  lemma JoinCreatesLobby(w: World, id: LobbyId, conn: ConnId, name: string)
    requires id !in w.lobbies
    ensures var r := OnJoin(w, id, conn, name);
      && r.world.lobbies[id] == Lobby([Player(conn, name)], Some(conn), RoundSeconds, "", true)
      && r.world.order == w.order + [id]
      && r.out == [Emit(Room(id), RoundStart(Some(conn))), Emit(Room(id), PlayersUpdate([Player(conn, name)]))]
  {
  }

  /** Joining again under a username already present, from any connection,
      leaves the player list as it was; the joining connection still becomes
      drawer when the lobby has none. */
  lemma RejoinSameUsername(w: World, id: LobbyId, conn: ConnId, name: string)
    requires id in w.lobbies
    requires HasUsername(w.lobbies[id].players, name)
    ensures var after := OnJoin(w, id, conn, name).world.lobbies[id];
      && after.players == w.lobbies[id].players
      && (w.lobbies[id].drawer.None? ==> after.drawer == Some(conn))
      && (w.lobbies[id].drawer.Some? ==> after == w.lobbies[id])
  {
  }

  /** A lobby whose stored interval has stopped while it already has a
      drawer stays idle for later joiners: a join adds the player but starts
      no round, resets no clock and names no new drawer. This is the state
      left behind when every player disconnects and the clock then runs out. */
  lemma IdleLobbyStaysIdleOnJoin(w: World, id: LobbyId, conn: ConnId, name: string)
    requires id in w.lobbies && w.lobbies[id].drawer.Some? && !w.lobbies[id].timerLive
    ensures var r := OnJoin(w, id, conn, name); var l := r.world.lobbies[id];
      && !l.timerLive
      && l.drawer == w.lobbies[id].drawer
      && l.roundTime == w.lobbies[id].roundTime
      && r.out == [Emit(Room(id), PlayersUpdate(l.players))]
  {
  }

  /** Disconnecting leaves untouched every lobby in which the connection has
      no entry. */
  lemma DisconnectSparesOtherLobbies(w: World, conn: ConnId, k: LobbyId)
    requires OrderListsKeys(w)
    requires k in w.lobbies && !IsPlayer(w.lobbies[k].players, conn)
    ensures OnDisconnect(w, conn).world.lobbies[k] == w.lobbies[k]
  {
    RemoveAbsentConn(w.lobbies[k].players, conn);
  }

  /** A winning guess of the empty string: right after a round starts the
      stored word is empty, and the empty message matches it. */
  lemma EmptyGuessWinsBeforeWordChosen(w: World, id: LobbyId, sender: string)
    requires id != "" && id in w.lobbies && w.lobbies[id].chosenWord == ""
    ensures var r := OnMessage(w, id, "", sender);
      && r.out[2] == Emit(Room(id), WinnerAnnouncement(sender, ""))
      && r.world.delayed == w.delayed + multiset{id}
  {
    EmptyWordMatchesOnlyEmptyGuess("");
  }

  /** A guess wins iff it equals the stored word letter by letter up to ASCII
      case; either way the lobby records are unchanged. */
  lemma GuessWinsIff(w: World, id: LobbyId, text: string, sender: string)
    requires id != "" && id in w.lobbies
    ensures var r := OnMessage(w, id, text, sender); var word := w.lobbies[id].chosenWord;
      && r.world.lobbies == w.lobbies
      && (|r.out| == 3 <==>
            |text| == |word| && forall i :: 0 <= i < |text| ==> SameLetter(text[i], word[i]))
  {
    MatchesIffSameLetters(w.lobbies[id].chosenWord, text);
  }

  /** A join registers a lobby id that is new at the end of the creation
      order and leaves the order alone for an id that exists. */
  lemma JoinKeepsOrder(w: World, id: LobbyId, conn: ConnId, name: string)
    requires OrderListsKeys(w)
    ensures OnJoin(w, id, conn, name).world.order == if id in w.lobbies then w.order else w.order + [id]
    ensures OrderListsKeys(OnJoin(w, id, conn, name).world)
  {
    var w' := OnJoin(w, id, conn, name).world;
    if id !in w.lobbies {
      assert w'.order == w.order + [id];
      assert id !in w.order;
      assert forall k :: k in w'.order <==> k in w.order || k == id;
    }
  }

  lemma JoinKeepsUsernamesUnique(w: World, id: LobbyId, conn: ConnId, name: string)
    requires UsernamesUnique(w)
    ensures UsernamesUnique(OnJoin(w, id, conn, name).world)
  {
    var w' := OnJoin(w, id, conn, name).world;
    assert UniqueUsernames(LobbyOrNew(w, id).players);
    JoinAppendsNewUsernameOnly(w, id, conn, name);
    forall k | k in w'.lobbies ensures UniqueUsernames(w'.lobbies[k].players) {
      if k != id {
        assert w'.lobbies[k] == w.lobbies[k];
      }
    }
  }

  lemma JoinPreservesValid(w: World, id: LobbyId, conn: ConnId, name: string)
    requires Valid(w)
    ensures Valid(OnJoin(w, id, conn, name).world)
  {
    JoinKeepsOrder(w, id, conn, name);
    JoinKeepsUsernamesUnique(w, id, conn, name);
  }

  lemma DisconnectPreservesValid(w: World, conn: ConnId)
    requires Valid(w)
    ensures Valid(OnDisconnect(w, conn).world)
  {
    var w' := OnDisconnect(w, conn).world;
    forall k | k in w'.lobbies ensures UniqueUsernames(w'.lobbies[k].players) {
      RemoveConnKeepsUsernamesUnique(w.lobbies[k].players, conn);
    }
  }

  lemma ChooseWordPreservesValid(w: World, id: LobbyId, conn: ConnId, word: string)
    requires Valid(w)
    ensures Valid(OnChooseWord(w, id, conn, word).world)
  {
  }

  lemma MessagePreservesValid(w: World, id: LobbyId, text: string, sender: string)
    requires Valid(w)
    ensures Valid(OnMessage(w, id, text, sender).world)
  {
  }

  /** Replacing one lobby by a record with the same players keeps the invariant. */
  lemma SamePlayersPreservesValid(w: World, id: LobbyId, l: Lobby)
    requires Valid(w) && id in w.lobbies && l.players == w.lobbies[id].players
    ensures Valid(w.(lobbies := w.lobbies[id := l]))
  {
  }

  lemma TickPreservesValid(w: World, id: LobbyId)
    requires Valid(w) && id in w.lobbies && w.lobbies[id].timerLive
    ensures Valid(OnTick(w, id).world)
  {
    SamePlayersPreservesValid(w, id, TimerTick(id, w.lobbies[id]).lobby);
  }

  lemma LegacyTickPreservesValid(w: World, id: LobbyId)
    requires Valid(w) && id in w.lobbies && id in w.legacy
    ensures Valid(OnLegacyTick(w, id).world)
  {
    var l := LegacyTimerTick(id, w.lobbies[id]).lobby;
    SamePlayersPreservesValid(w, id, l);
    var w1 := w.(lobbies := w.lobbies[id := l]);
    assert OnLegacyTick(w, id).world == w1.(legacy := OnLegacyTick(w, id).world.legacy);
    assert forall k :: k in OnLegacyTick(w, id).world.legacy ==> k in w.legacy;
  }

  lemma DelayedNextTurnPreservesValid(w: World, id: LobbyId)
    requires Valid(w) && id in w.lobbies && id in w.delayed
    ensures Valid(OnDelayedNextTurn(w, id).world)
  {
    var l := NextTurn(id, w.lobbies[id]).lobby;
    SamePlayersPreservesValid(w, id, l);
    var w1 := w.(lobbies := w.lobbies[id := l]);
    assert OnDelayedNextTurn(w, id).world == w1.(delayed := w.delayed - multiset{id});
    assert forall k :: k in OnDelayedNextTurn(w, id).world.delayed ==> k in w.delayed;
  }

  /** Every transition keeps the world invariant. */
  lemma StepPreservesValid(w: World, e: Event)
    requires Valid(w) && Enabled(w, e)
    ensures Valid(Step(w, e).world)
  {
    match e
    case JoinLobby(id, conn, name) => JoinPreservesValid(w, id, conn, name);
    case ChooseWord(id, conn, word) => ChooseWordPreservesValid(w, id, conn, word);
    case Disconnect(conn) => DisconnectPreservesValid(w, conn);
    case SendMessage(id, text, sender) => MessagePreservesValid(w, id, text, sender);
    case Tick(id) => TickPreservesValid(w, id);
    case LegacyTick(id) => LegacyTickPreservesValid(w, id);
    case DelayedNextTurn(id) => DelayedNextTurnPreservesValid(w, id);
    case StartDrawing(_, _, _, _) =>
    case Drawing(_, _, _, _) =>
  }

  /** Lobbies are never removed, and only a join adds one. */
  lemma StepKeepsLobbies(w: World, e: Event)
    requires Valid(w) && Enabled(w, e)
    ensures w.lobbies.Keys <= Step(w, e).world.lobbies.Keys
    ensures !e.JoinLobby? ==> Step(w, e).world.lobbies.Keys == w.lobbies.Keys
  {
  }

  /** Events other than timer firings change a drawer only by a join into a
      lobby that has none. */
  lemma HandlersSetDrawerOnlyOnJoin(w: World, e: Event, id: LobbyId)
    requires Valid(w) && Enabled(w, e)
    requires !(e.Tick? || e.LegacyTick? || e.DelayedNextTurn?)
    requires id in w.lobbies
    ensures id in Step(w, e).world.lobbies
    ensures Step(w, e).world.lobbies[id].drawer != w.lobbies[id].drawer ==>
      e.JoinLobby? && w.lobbies[id].drawer.None? && Step(w, e).world.lobbies[id].drawer.Some?
  {
  }

  /** Timer firings and the delayed turn replace a drawer only by a player. */
  lemma TimersRotateToPlayer(w: World, e: Event, id: LobbyId)
    requires Valid(w) && Enabled(w, e)
    requires e.Tick? || e.LegacyTick? || e.DelayedNextTurn?
    requires id in w.lobbies
    ensures id in Step(w, e).world.lobbies
    ensures var d := Step(w, e).world.lobbies[id].drawer;
      d == w.lobbies[id].drawer || (d.Some? && IsPlayer(w.lobbies[id].players, d.value))
  {
  }

  /** Once a lobby has a drawer, no transition takes it away: joins keep it,
      `disconnect` leaves it even when the drawer is the one leaving, and
      rotation always names a player. */
  lemma StepKeepsDrawer(w: World, e: Event, id: LobbyId)
    requires Valid(w) && Enabled(w, e)
    requires id in w.lobbies && w.lobbies[id].drawer.Some?
    ensures id in Step(w, e).world.lobbies
    ensures Step(w, e).world.lobbies[id].drawer.Some?
  {
    if e.Tick? || e.LegacyTick? || e.DelayedNextTurn? {
      TimersRotateToPlayer(w, e, id);
    } else {
      HandlersSetDrawerOnlyOnJoin(w, e, id);
    }
  }

  /** An event addressed to one lobby changes no other lobby record. */
  lemma StepIsLocal(w: World, e: Event, k: LobbyId)
    requires Valid(w) && Enabled(w, e)
    requires EventLobby(e).Some? && k != EventLobby(e).value && k in w.lobbies
    ensures Step(w, e).world.lobbies[k] == w.lobbies[k]
  {
  }

  /** The drawer's identity changes only by a join into a lobby without one,
      or by a rotation (a stored or `startTimer` interval running out, or the
      delayed turn after a win); the new drawer of a rotation is a player. */
  lemma DrawerChangesOnlyByJoinOrRotation(w: World, e: Event, id: LobbyId)
    requires Valid(w) && Enabled(w, e)
    requires id in w.lobbies
    ensures id in Step(w, e).world.lobbies
    ensures var d := Step(w, e).world.lobbies[id].drawer;
      d != w.lobbies[id].drawer ==>
        && (e.JoinLobby? || e.Tick? || e.LegacyTick? || e.DelayedNextTurn?)
        && (e.JoinLobby? ==> w.lobbies[id].drawer.None?)
        && (!e.JoinLobby? ==> d.Some? && IsPlayer(w.lobbies[id].players, d.value))
  {
    if e.Tick? || e.LegacyTick? || e.DelayedNextTurn? {
      TimersRotateToPlayer(w, e, id);
    } else {
      HandlersSetDrawerOnlyOnJoin(w, e, id);
    }
  }
}

=== FILE: registry.dfy ===
/**
  The lobby registry and the socket event handlers that drive it, as one pure
  step function over a world of lobby records and pending callbacks.
 */
module Registry {
  import opened Options
  import opened Text
  import opened Lobbies
  import opened Rotation
  import opened Rounds

  /** The registry, the order in which its keys were created (the order in
      which `disconnect` visits the lobbies), the intervals started by
      `startTimer` (one entry per live interval, by lobby), the pending
      delayed `nextTurn` calls scheduled after a win, and the connections
      that have disconnected. The transport delivers no event from a closed
      connection and never hands its id to a new one. */
  datatype World = World(
    lobbies: map<LobbyId, Lobby>,
    order: seq<LobbyId>,
    legacy: multiset<LobbyId>,
    delayed: multiset<LobbyId>,
    gone: set<ConnId>)

  /** The server at start-up: no lobbies, nothing scheduled, nobody gone. */
  const Empty: World := World(map[], [], multiset{}, multiset{}, {})

  datatype WorldStep = WorldStep(world: World, out: seq<Output>)

  /** Inbound socket events, plus the firings of the server's own timers. */
  datatype Event =
    | JoinLobby(lobby: LobbyId, conn: ConnId, username: string)
    | ChooseWord(lobby: LobbyId, conn: ConnId, word: string)
    | Disconnect(conn: ConnId)
    | StartDrawing(lobby: LobbyId, conn: ConnId, x: int, y: int)
    | Drawing(lobby: LobbyId, conn: ConnId, x: int, y: int)
    | SendMessage(lobby: LobbyId, text: string, sender: string)
    | Tick(lobby: LobbyId)
    | LegacyTick(lobby: LobbyId)
    | DelayedNextTurn(lobby: LobbyId)

  /** `order` lists each registry key exactly once. */
  ghost predicate OrderListsKeys(w: World) {
    && (forall i, j :: 0 <= i < j < |w.order| ==> w.order[i] != w.order[j])
    && (forall k :: k in w.lobbies <==> k in w.order)
  }

  /** Every scheduled callback belongs to a lobby of the registry. */
  ghost predicate CallbacksRegistered(w: World) {
    && (forall k :: k in w.legacy ==> k in w.lobbies)
    && (forall k :: k in w.delayed ==> k in w.lobbies)
  }

  /** No lobby lists two players with the same username. */
  ghost predicate UsernamesUnique(w: World) {
    forall k :: k in w.lobbies ==> UniqueUsernames(w.lobbies[k].players)
  }

  /** What every reachable world satisfies. */
  ghost predicate Valid(w: World) {
    OrderListsKeys(w) && CallbacksRegistered(w) && UsernamesUnique(w)
  }

  /** Events that can be delivered in `w`: a socket event comes from a
      connection that has not disconnected, a timer fires only while it is
      scheduled, and drawing events name an existing lobby (the handlers
      would throw otherwise). */
  predicate Enabled(w: World, e: Event) {
    match e
    case JoinLobby(_, conn, _) => conn !in w.gone
    case ChooseWord(_, conn, _) => conn !in w.gone
    case Disconnect(conn) => conn !in w.gone
    case StartDrawing(id, conn, _, _) => id in w.lobbies && conn !in w.gone
    case Drawing(id, conn, _, _) => id in w.lobbies && conn !in w.gone
    case Tick(id) => id in w.lobbies && w.lobbies[id].timerLive
    case LegacyTick(id) => id in w.legacy && id in w.lobbies
    case DelayedNextTurn(id) => id in w.delayed && id in w.lobbies
    case _ => true
  }

  /** The lobby a join acts on: the stored one, or a new record. */
  function LobbyOrNew(w: World, id: LobbyId): Lobby {
    if id in w.lobbies then w.lobbies[id] else NewLobby
  }

  /** `join-lobby`: create the lobby if needed, add the player unless the
      username is taken, and make the joining connection the drawer (starting
      a round) when the lobby has none. */
  function OnJoin(w: World, id: LobbyId, conn: ConnId, name: string): (r: WorldStep)
    ensures r.world.lobbies.Keys == w.lobbies.Keys + {id}
    ensures forall k :: k in w.lobbies && k != id ==> r.world.lobbies[k] == w.lobbies[k]
    ensures r.world.legacy == w.legacy && r.world.delayed == w.delayed && r.world.gone == w.gone
    ensures var before := LobbyOrNew(w, id); var after := r.world.lobbies[id];
      && after.players == (if HasUsername(before.players, name) then before.players
                           else before.players + [Player(conn, name)])
      && (before.drawer.Some? ==>
            && after == before.(players := after.players)
            && r.out == [Emit(Room(id), PlayersUpdate(after.players))])
      && (before.drawer.None? ==>
            && after.drawer == Some(conn)
            && FreshRound(before.(players := after.players, drawer := Some(conn)), after)
            && r.out == [Emit(Room(id), RoundStart(Some(conn))), Emit(Room(id), PlayersUpdate(after.players))])
  {
    var before := LobbyOrNew(w, id);
    var joined :=
      if HasUsername(before.players, name) then before
      else before.(players := before.players + [Player(conn, name)]);
    var s :=
      if joined.drawer.None? then StartRound(id, joined.(drawer := Some(conn)))
      else LobbyStep(joined, []);
    WorldStep(
      w.(lobbies := w.lobbies[id := s.lobby],
         order := if id in w.lobbies then w.order else w.order + [id]),
      s.out + [Emit(Room(id), PlayersUpdate(s.lobby.players))])
  }

  /** `choose-word`: only the drawer of an existing lobby may set the word.
      The word's length is broadcast, and when no stored interval is live
      `startTimer` resets the clock and adds one untracked interval. */
  function OnChooseWord(w: World, id: LobbyId, conn: ConnId, word: string): (r: WorldStep)
    ensures !(id in w.lobbies && w.lobbies[id].drawer == Some(conn)) ==> r == WorldStep(w, [])
    ensures id in w.lobbies && w.lobbies[id].drawer == Some(conn) ==>
      var l := w.lobbies[id];
      && r.world.order == w.order
      && r.world.delayed == w.delayed
      && r.world.gone == w.gone
      && id in r.world.lobbies
      && r.world.lobbies == w.lobbies[id := r.world.lobbies[id]]
      && r.world.lobbies[id].chosenWord == word
      && r.world.lobbies[id] == l.(chosenWord := word, roundTime := r.world.lobbies[id].roundTime)
      && r.out == [Emit(Room(id), WordChosen(|word|))]
      && (l.timerLive ==> r.world.lobbies[id].roundTime == l.roundTime && r.world.legacy == w.legacy)
      && (!l.timerLive ==> r.world.lobbies[id].roundTime == RoundSeconds && r.world.legacy == w.legacy + multiset{id})
  {
    if id in w.lobbies && w.lobbies[id].drawer == Some(conn) then
      var l := w.lobbies[id].(chosenWord := word);
      var out := [Emit(Room(id), WordChosen(|word|))];
      if l.timerLive then WorldStep(w.(lobbies := w.lobbies[id := l]), out)
      else
        WorldStep(
          w.(lobbies := w.lobbies[id := l.(roundTime := RoundSeconds)], legacy := w.legacy + multiset{id}),
          out)
    else WorldStep(w, [])
  }

  /** The player list without the entries of connection `conn`
      (`players.filter(p => p.id !== conn)`). */
  function RemoveConn(players: seq<Player>, conn: ConnId): (r: seq<Player>)
    ensures forall i :: 0 <= i < |r| ==> r[i].id != conn
    ensures |r| <= |players|
  {
    if players == [] then []
    else
      assert players == [players[0]] + players[1..];
      (if players[0].id == conn then [] else [players[0]]) + RemoveConn(players[1..], conn)
  }

  /** Exactly the entries of `conn` go: every other entry stays, as often as
      it occurred before. */
  lemma {:induction false} RemoveConnContents(players: seq<Player>, conn: ConnId)
    ensures forall p :: multiset(RemoveConn(players, conn))[p] == if p.id == conn then 0 else multiset(players)[p]
    decreases |players|
  {
    if players != [] {
      assert players == [players[0]] + players[1..];
      RemoveConnContents(players[1..], conn);
    }
  }

  /** Removing a connection distributes over concatenation, so the remaining
      players keep their relative order. */
  lemma {:induction false} RemoveConnConcat(a: seq<Player>, b: seq<Player>, conn: ConnId)
    ensures RemoveConn(a + b, conn) == RemoveConn(a, conn) + RemoveConn(b, conn)
    decreases |a|
  {
    if a != [] {
      var head := if a[0].id == conn then [] else [a[0]];
      assert (a + b)[0] == a[0];
      assert (a + b)[1..] == a[1..] + b;
      assert RemoveConn(a + b, conn) == head + RemoveConn(a[1..] + b, conn);
      assert RemoveConn(a, conn) == head + RemoveConn(a[1..], conn);
      RemoveConnConcat(a[1..], b, conn);
      assert head + (RemoveConn(a[1..], conn) + RemoveConn(b, conn))
          == (head + RemoveConn(a[1..], conn)) + RemoveConn(b, conn);
    } else {
      assert a + b == b;
    }
  }

  /** A list without entries of `conn` is left as it is. */
  lemma {:induction false} RemoveAbsentConn(players: seq<Player>, conn: ConnId)
    requires !IsPlayer(players, conn)
    ensures RemoveConn(players, conn) == players
    decreases |players|
  {
    if players != [] {
      assert !IsPlayer(players[1..], conn) by {
        forall i | 0 <= i < |players[1..]| ensures players[1..][i].id != conn {
          assert players[1..][i] == players[i + 1];
        }
      }
      RemoveAbsentConn(players[1..], conn);
    }
  }

  /** Removing entries never makes two usernames collide. */
  lemma {:induction false} RemoveConnKeepsUsernamesUnique(players: seq<Player>, conn: ConnId)
    requires UniqueUsernames(players)
    ensures UniqueUsernames(RemoveConn(players, conn))
    decreases |players|
  {
    if players != [] {
      var rest := RemoveConn(players[1..], conn);
      RemoveConnKeepsUsernamesUnique(players[1..], conn);
      forall q | q in rest ensures q.username != players[0].username {
        RemoveConnContents(players[1..], conn);
        assert multiset(rest)[q] > 0;
        assert q in multiset(players[1..]);
        var j :| 0 <= j < |players[1..]| && players[1..][j] == q;
        assert players[j + 1] == q;
      }
    }
  }

  /** `disconnect`: drop the connection from every lobby's player list and
      broadcast every lobby's list, in the order the lobbies were created.
      Drawer, word, clock and timers are left alone. */
  function OnDisconnect(w: World, conn: ConnId): (r: WorldStep)
    requires OrderListsKeys(w)
    ensures r.world.lobbies.Keys == w.lobbies.Keys
    ensures r.world.order == w.order && r.world.legacy == w.legacy && r.world.delayed == w.delayed
    ensures r.world.gone == w.gone + {conn}
    ensures forall k :: k in w.lobbies ==>
      r.world.lobbies[k] == w.lobbies[k].(players := RemoveConn(w.lobbies[k].players, conn))
    ensures |r.out| == |w.order|
    ensures forall i :: 0 <= i < |w.order| ==>
      r.out[i] == Emit(Room(w.order[i]), PlayersUpdate(r.world.lobbies[w.order[i]].players))
  {
    var lobbies := map k | k in w.lobbies :: w.lobbies[k].(players := RemoveConn(w.lobbies[k].players, conn));
    WorldStep(
      w.(lobbies := lobbies, gone := w.gone + {conn}),
      seq(|w.order|, i requires 0 <= i < |w.order| => Emit(Room(w.order[i]), PlayersUpdate(lobbies[w.order[i]].players))))
  }

  /** `start-drawing` / `drawing`: a stroke is passed on to the rest of the
      room only when it comes from the drawer. */
  function Relay(l: Lobby, id: LobbyId, conn: ConnId, stroke: Payload): (r: seq<Output>)
    ensures r != [] <==> l.drawer == Some(conn)
    ensures r != [] ==> r == [Emit(RoomExcept(id, conn), stroke)]
  {
    if l.drawer == Some(conn) then [Emit(RoomExcept(id, conn), stroke)] else []
  }

  /** `send-message`: in an existing lobby (the empty id counts as missing)
      the message goes to every connection and to the room; a guess matching
      the stored word announces the winner with that word and schedules a
      delayed `nextTurn`. The lobby records are never changed. */
  function OnMessage(w: World, id: LobbyId, text: string, sender: string): (r: WorldStep)
    ensures r.world.lobbies == w.lobbies && r.world.order == w.order && r.world.legacy == w.legacy
    ensures r.world.gone == w.gone
    ensures id == "" || id !in w.lobbies ==> r == WorldStep(w, [])
    ensures id != "" && id in w.lobbies ==>
      var word := w.lobbies[id].chosenWord;
      && |r.out| >= 2
      && r.out[..2] == [Emit(Everyone, Message(text, sender)), Emit(Room(id), Message(text, sender))]
      && (Matches(word, text) ==>
            && r.out == r.out[..2] + [Emit(Room(id), WinnerAnnouncement(sender, word))]
            && r.world.delayed == w.delayed + multiset{id})
      && (!Matches(word, text) ==> |r.out| == 2 && r.world.delayed == w.delayed)
  {
    if id == "" || id !in w.lobbies then WorldStep(w, [])
    else
      var msg := Message(text, sender);
      var out := [Emit(Everyone, msg), Emit(Room(id), msg)];
      var word := w.lobbies[id].chosenWord;
      if Matches(word, text) then
        WorldStep(w.(delayed := w.delayed + multiset{id}), out + [Emit(Room(id), WinnerAnnouncement(sender, word))])
      else WorldStep(w, out)
  }

  /** A firing of the stored round interval: one second of that lobby's
      clock, broadcast to its room; at zero the stored handle is cleared and
      the turn passes on. Nothing outside that lobby changes. */
  function OnTick(w: World, id: LobbyId): (r: WorldStep)
    requires id in w.lobbies && w.lobbies[id].timerLive
    ensures r.world.order == w.order && r.world.legacy == w.legacy && r.world.delayed == w.delayed
    ensures r.world.gone == w.gone
    ensures r.world.lobbies.Keys == w.lobbies.Keys
    ensures forall k :: k in w.lobbies && k != id ==> r.world.lobbies[k] == w.lobbies[k]
    ensures var l := w.lobbies[id]; var l' := r.world.lobbies[id];
      && l'.players == l.players
      && |r.out| >= 1 && r.out[0] == Emit(Room(id), TimerUpdate(l.roundTime - 1))
      && (l.roundTime > 1 ==> l' == l.(roundTime := l.roundTime - 1) && r.out == [r.out[0]])
      && (l.roundTime <= 1 && l.players == [] ==>
            l' == l.(roundTime := l.roundTime - 1, timerLive := false) && r.out == [r.out[0]])
      && (l.roundTime <= 1 && l.players != [] ==>
            && l'.drawer == Some(NextDrawer(l.players, l.drawer))
            && FreshRound(l.(drawer := l'.drawer), l')
            && r.out == [r.out[0], Emit(Room(id), RoundStart(l'.drawer))])
  {
    var s := TimerTick(id, w.lobbies[id]);
    WorldStep(w.(lobbies := w.lobbies[id := s.lobby]), s.out)
  }

  /** A firing of one `startTimer` interval; the interval stops itself when
      the clock runs out. */
  function OnLegacyTick(w: World, id: LobbyId): (r: WorldStep)
    requires id in w.legacy && id in w.lobbies
    ensures r.world.order == w.order && r.world.delayed == w.delayed && r.world.gone == w.gone
    ensures r.world.lobbies.Keys == w.lobbies.Keys
    ensures forall k :: k in w.lobbies && k != id ==> r.world.lobbies[k] == w.lobbies[k]
    ensures var l := w.lobbies[id]; var l' := r.world.lobbies[id];
      && l'.players == l.players
      && |r.out| >= 1 && r.out[0] == Emit(Room(id), TimerUpdate(l.roundTime - 1))
      && (l.roundTime > 1 ==>
            && l' == l.(roundTime := l.roundTime - 1)
            && r.out == [r.out[0]]
            && r.world.legacy == w.legacy)
      && (l.roundTime <= 1 ==> r.world.legacy[id] == w.legacy[id] - 1)
      && (l.roundTime <= 1 ==> forall k :: k != id ==> r.world.legacy[k] == w.legacy[k])
      && (l.roundTime <= 1 && l.players == [] ==>
            l' == l.(roundTime := l.roundTime - 1) && r.out == [r.out[0]])
      && (l.roundTime <= 1 && l.players != [] ==>
            && l'.drawer == Some(NextDrawer(l.players, l.drawer))
            && FreshRound(l.(drawer := l'.drawer), l')
            && r.out == [r.out[0], Emit(Room(id), RoundStart(l'.drawer))])
  {
    var l := w.lobbies[id];
    var s := LegacyTimerTick(id, l);
    WorldStep(
      w.(lobbies := w.lobbies[id := s.lobby],
         legacy := if l.roundTime - 1 <= 0 then w.legacy - multiset{id} else w.legacy),
      s.out)
  }

  /** The delayed `nextTurn` scheduled by a win, seven seconds later. */
  function OnDelayedNextTurn(w: World, id: LobbyId): (r: WorldStep)
    requires id in w.delayed && id in w.lobbies
    ensures r.world.order == w.order && r.world.legacy == w.legacy && r.world.gone == w.gone
    ensures r.world.delayed[id] == w.delayed[id] - 1
    ensures forall k :: k != id ==> r.world.delayed[k] == w.delayed[k]
    ensures r.world.lobbies.Keys == w.lobbies.Keys
    ensures forall k :: k in w.lobbies && k != id ==> r.world.lobbies[k] == w.lobbies[k]
    ensures var l := w.lobbies[id]; var l' := r.world.lobbies[id];
      && (l.players == [] ==> l' == l && r.out == [])
      && (l.players != [] ==>
            && l'.drawer == Some(NextDrawer(l.players, l.drawer))
            && FreshRound(l.(drawer := l'.drawer), l')
            && r.out == [Emit(Room(id), RoundStart(l'.drawer))])
  {
    var s := NextTurn(id, w.lobbies[id]);
    WorldStep(w.(lobbies := w.lobbies[id := s.lobby], delayed := w.delayed - multiset{id}), s.out)
  }

  /** One run-to-completion transition of the server. */
  function Step(w: World, e: Event): WorldStep
    requires Valid(w) && Enabled(w, e)
  {
    match e
    case JoinLobby(id, conn, name) => OnJoin(w, id, conn, name)
    case ChooseWord(id, conn, word) => OnChooseWord(w, id, conn, word)
    case Disconnect(conn) => OnDisconnect(w, conn)
    case StartDrawing(id, conn, x, y) => WorldStep(w, Relay(w.lobbies[id], id, conn, RelayStartDrawing(x, y)))
    case Drawing(id, conn, x, y) => WorldStep(w, Relay(w.lobbies[id], id, conn, RelayDrawing(x, y)))
    case SendMessage(id, text, sender) => OnMessage(w, id, text, sender)
    case Tick(id) => OnTick(w, id)
    case LegacyTick(id) => OnLegacyTick(w, id)
    case DelayedNextTurn(id) => OnDelayedNextTurn(w, id)
  }
}

=== FILE: rotation.dfy ===
/**
  Drawer rotation (`nextTurn`'s choice of the next drawer): the player after
  the current drawer in join order, wrapping around, or the first player when
  the drawer is not in the list.
 */
module Rotation {
  import opened Options
  import opened Lobbies

  /** `players.findIndex(p => p.id === drawer)`: the first position holding
      the drawer's connection, or -1 when there is none. */
  function FindIndex(players: seq<Player>, drawer: Option<ConnId>): (i: int)
    ensures -1 <= i < |players|
    ensures 0 <= i ==> Some(players[i].id) == drawer
    ensures forall j: nat :: j < |players| && Some(IdAt(players, j)) == drawer ==> 0 <= i <= j
  {
    if players == [] then -1
    else if Some(players[0].id) == drawer then 0
    else
      var k := FindIndex(players[1..], drawer);
      assert forall j: nat :: 1 <= j < |players| ==> IdAt(players, j) == IdAt(players[1..], j - 1);
      if k < 0 then -1 else k + 1
  }

  /** `(currentIndex + 1) % players.length`. */
  function NextIndex(players: seq<Player>, drawer: Option<ConnId>): (n: int)
    requires players != []
    ensures 0 <= n < |players|
  {
    (FindIndex(players, drawer) + 1) % |players|
  }

  /** The connection that draws next; always one of the players. */
  function NextDrawer(players: seq<Player>, drawer: Option<ConnId>): (c: ConnId)
    requires players != []
    ensures IsPlayer(players, c)
  {
    players[NextIndex(players, drawer)].id
  }

  /** When the drawer is the first entry of its connection at position `i`,
      the turn passes to position `i + 1`, or back to 0 from the last position. */
  lemma NextAfterFirstOccurrence(players: seq<Player>, i: int)
    requires 0 <= i < |players|
    requires forall j: nat :: j < i ==> IdAt(players, j) != IdAt(players, i)
    ensures NextDrawer(players, Some(players[i].id))
         == players[if i == |players| - 1 then 0 else i + 1].id
  {
    var k := FindIndex(players, Some(IdAt(players, i)));
    assert 0 <= k <= i;
    assert IdAt(players, k) == IdAt(players, i);
    SuccessorMod(i, |players|);
  }

  /** The successor of a position, taken modulo the list length. */
  lemma SuccessorMod(i: int, n: int)
    requires 0 <= i < n
    ensures (i + 1) % n == if i == n - 1 then 0 else i + 1
  {
  }

  /** A drawer who has left the list hands the turn to the first player. */
  lemma NextWhenAbsent(players: seq<Player>, drawer: Option<ConnId>)
    requires players != []
    requires drawer.None? || !IsPlayer(players, drawer.value)
    ensures NextDrawer(players, drawer) == players[0].id
  {
    assert forall j :: 0 <= j < |players| ==> Some(players[j].id) != drawer;
    assert FindIndex(players, drawer) == -1;
    assert NextIndex(players, drawer) == 0 % |players|;
  }

  /** With distinct connections, every entry is the first of its connection. */
  lemma DistinctIdsFirst(players: seq<Player>, i: nat)
    requires DistinctIds(players)
    requires i < |players|
    ensures forall j: nat :: j < i ==> IdAt(players, j) != IdAt(players, i)
  {
  }

  /** The drawer after `k` consecutive rotations over an unchanging list. */
  function Rotate(players: seq<Player>, drawer: Option<ConnId>, k: nat): Option<ConnId>
    requires players != []
    decreases k
  {
    if k == 0 then drawer else Rotate(players, Some(NextDrawer(players, drawer)), k - 1)
  }

  /** Rotating `k` times is rotating `a` times and then the remaining `k - a`. */
  lemma {:induction false} RotateSplit(players: seq<Player>, drawer: Option<ConnId>, a: nat, k: nat)
    requires players != []
    requires a <= k
    ensures Rotate(players, drawer, k) == Rotate(players, Rotate(players, drawer, a), k - a)
    decreases a
  {
    if a > 0 {
      RotateSplit(players, Some(NextDrawer(players, drawer)), a - 1, k - 1);
    }
  }

  /** Without wrapping, `k` rotations from position `i` reach position `i + k`. */
  lemma {:induction false} RotateWalk(players: seq<Player>, i: nat, k: nat)
    requires DistinctIds(players)
    requires i + k < |players|
    ensures Rotate(players, Some(players[i].id), k) == Some(players[i + k].id)
    decreases k
  {
    if k > 0 {
      DistinctIdsFirst(players, i);
      NextAfterFirstOccurrence(players, i);
      RotateWalk(players, i + 1, k - 1);
    }
  }

  /** One rotation from the last position wraps around to the first. */
  lemma RotateWrap(players: seq<Player>, k: nat)
    requires DistinctIds(players)
    requires players != []
    ensures Rotate(players, Some(players[|players| - 1].id), k + 1) == Rotate(players, Some(players[0].id), k)
  {
    DistinctIdsFirst(players, |players| - 1);
    NextAfterFirstOccurrence(players, |players| - 1);
  }

  /** As many rotations as there are players lead from position `i` back to it. */
  lemma RotateFullCycleAt(players: seq<Player>, i: nat)
    requires DistinctIds(players)
    requires i < |players|
    ensures Rotate(players, Some(players[i].id), |players|) == Some(players[i].id)
  {
    var n := |players|;
    var start := Some(players[i].id);
    var last := Some(players[n - 1].id);
    var m: nat := n - 1 - i;
    RotateSplit(players, start, m, n);
    assert n - m == i + 1;
    RotateWalk(players, i, m);
    assert Rotate(players, start, n) == Rotate(players, last, i + 1);
    RotateWrap(players, i);
    RotateWalk(players, 0, i);
  }

  /** Full cycle: over a fixed list of distinct connections that contains the
      drawer, as many rotations as there are players give the turn back to
      the drawer. */
  lemma RotateFullCycle(players: seq<Player>, drawer: ConnId)
    requires DistinctIds(players)
    requires IsPlayer(players, drawer)
    ensures Rotate(players, Some(drawer), |players|) == Some(drawer)
  {
    var i :| 0 <= i < |players| && players[i].id == drawer;
    RotateFullCycleAt(players, i);
  }

  /** The full cycle is guaranteed only over distinct connections. With one
      connection joined under two usernames it can fail: here rotation from
      the connection's first place never reaches its second, and three
      rotations end at Bob. */
  lemma RepeatedConnectionBreaksCycle()
    ensures var players := [Player(1, "Ann"), Player(2, "Bob"), Player(1, "Amy")];
      Rotate(players, Some(1), |players|) == Some(2)
  {
    var players := [Player(1, "Ann"), Player(2, "Bob"), Player(1, "Amy")];
    NextAfterFirstOccurrence(players, 0);
    NextAfterFirstOccurrence(players, 1);
    assert Rotate(players, Some(1), 3) == Rotate(players, Some(2), 2);
    assert Rotate(players, Some(2), 2) == Rotate(players, Some(1), 1);
  }
}

=== FILE: rounds.dfy ===
/**
  Round lifecycle of one lobby: `startRound`, `nextTurn`, and the per-second
  callbacks of the stored round interval and of the extra interval that
  `startTimer` creates without keeping its handle.
 */
module Rounds {
  import opened Options
  import opened Lobbies
  import opened Rotation

  /** `after` is a freshly started round of `before`: same players and drawer,
      a full clock, no word, and a live stored interval. */
  ghost predicate FreshRound(before: Lobby, after: Lobby) {
    && after.players == before.players
    && after.drawer == before.drawer
    && after.roundTime == RoundSeconds
    && after.chosenWord == ""
    && after.timerLive
  }

  /** `startRound`: in a lobby with players, restart the clock, forget the
      word, announce the drawer and replace the stored interval by a new one. */
  function StartRound(id: LobbyId, l: Lobby): (r: LobbyStep)
    ensures l.players == [] ==> r == LobbyStep(l, [])
    ensures l.players != [] ==> FreshRound(l, r.lobby)
    ensures l.players != [] ==> r.out == [Emit(Room(id), RoundStart(l.drawer))]
  {
    if l.players == [] then LobbyStep(l, [])
    else
      LobbyStep(
        l.(roundTime := RoundSeconds, chosenWord := "", timerLive := true),
        [Emit(Room(id), RoundStart(l.drawer))])
  }

  /** `nextTurn`: with players present, the turn passes to the next player
      in join order and a fresh round starts. */
  function NextTurn(id: LobbyId, l: Lobby): (r: LobbyStep)
    ensures l.players == [] ==> r == LobbyStep(l, [])
    ensures l.players != [] ==>
      && r.lobby.drawer.Some?
      && IsPlayer(l.players, r.lobby.drawer.value)
      && r.lobby.drawer.value == NextDrawer(l.players, l.drawer)
      && FreshRound(l.(drawer := r.lobby.drawer), r.lobby)
      && r.out == [Emit(Room(id), RoundStart(r.lobby.drawer))]
  {
    if l.players == [] then LobbyStep(l, [])
    else StartRound(id, l.(drawer := Some(NextDrawer(l.players, l.drawer))))
  }

  /** One second of the stored round interval. The clock goes down by one and
      is broadcast; at zero or below the stored handle is cleared and the turn
      passes on. */
  function TimerTick(id: LobbyId, l: Lobby): (r: LobbyStep)
    requires l.timerLive
    ensures r.lobby.players == l.players
    ensures |r.out| >= 1 && r.out[0] == Emit(Room(id), TimerUpdate(l.roundTime - 1))
    ensures l.roundTime > 1 ==> r == LobbyStep(l.(roundTime := l.roundTime - 1), [r.out[0]])
    ensures l.roundTime <= 1 && l.players == [] ==>
      r == LobbyStep(l.(roundTime := l.roundTime - 1, timerLive := false), [r.out[0]])
    ensures l.roundTime <= 1 && l.players != [] ==>
      && r.lobby.drawer == Some(NextDrawer(l.players, l.drawer))
      && FreshRound(l.(drawer := r.lobby.drawer), r.lobby)
      && r.out == [r.out[0], Emit(Room(id), RoundStart(r.lobby.drawer))]
  {
    var left := l.roundTime - 1;
    var update := Emit(Room(id), TimerUpdate(left));
    if left <= 0 then
      var s := NextTurn(id, l.(roundTime := left, timerLive := false));
      LobbyStep(s.lobby, [update] + s.out)
    else
      LobbyStep(l.(roundTime := left), [update])
  }

  /** One second of an interval created by `startTimer`. It counts down the
      same clock, but at zero it stops only itself and leaves the stored
      handle alone before passing the turn on. */
  function LegacyTimerTick(id: LobbyId, l: Lobby): (r: LobbyStep)
    ensures r.lobby.players == l.players
    ensures |r.out| >= 1 && r.out[0] == Emit(Room(id), TimerUpdate(l.roundTime - 1))
    ensures l.roundTime > 1 ==> r == LobbyStep(l.(roundTime := l.roundTime - 1), [r.out[0]])
    ensures l.roundTime <= 1 && l.players == [] ==>
      r == LobbyStep(l.(roundTime := l.roundTime - 1), [r.out[0]])
    ensures l.roundTime <= 1 && l.players != [] ==>
      && r.lobby.drawer == Some(NextDrawer(l.players, l.drawer))
      && FreshRound(l.(drawer := r.lobby.drawer), r.lobby)
      && r.out == [r.out[0], Emit(Room(id), RoundStart(r.lobby.drawer))]
  {
    var left := l.roundTime - 1;
    var update := Emit(Room(id), TimerUpdate(left));
    if left <= 0 then
      var s := NextTurn(id, l.(roundTime := left));
      LobbyStep(s.lobby, [update] + s.out)
    else
      LobbyStep(l.(roundTime := left), [update])
  }

  /** `k` seconds of the stored interval alone, with everything broadcast
      meanwhile; it stops early once no stored interval is left. */
  function RunTimer(id: LobbyId, l: Lobby, k: nat): LobbyStep
    decreases k
  {
    if k == 0 || !l.timerLive then LobbyStep(l, [])
    else
      var s := TimerTick(id, l);
      var t := RunTimer(id, s.lobby, k - 1);
      LobbyStep(t.lobby, s.out + t.out)
  }

  /** The `update-timer` broadcasts of `k` seconds counted down from `from`:
      `from - 1`, `from - 2`, ..., `from - k`. */
  function Countdown(id: LobbyId, from: int, k: nat): (s: seq<Output>)
    ensures |s| == k
  {
    seq(k, i requires 0 <= i < k => Emit(Room(id), TimerUpdate(from - 1 - i)))
  }

  /** Before it runs out, each second of the stored interval lowers the clock
      by exactly one and broadcasts the new value; nothing else changes. */
  lemma {:induction false} TicksBeforeExpiry(id: LobbyId, l: Lobby, k: nat)
    requires l.timerLive
    requires k < l.roundTime
    ensures RunTimer(id, l, k) == LobbyStep(l.(roundTime := l.roundTime - k), Countdown(id, l.roundTime, k))
    decreases k
  {
    if k > 0 {
      var l' := l.(roundTime := l.roundTime - 1);
      TicksBeforeExpiry(id, l', k - 1);
      assert Countdown(id, l.roundTime, k)
          == [Emit(Room(id), TimerUpdate(l.roundTime - 1))] + Countdown(id, l'.roundTime, k - 1);
    }
  }

  /** A clock showing `t >= 1` seconds runs out after exactly `t` seconds of
      the stored interval, having broadcast `t - 1` down to `0`. Then the turn
      passes to the next player and a fresh round starts, or, in a lobby left
      without players, the stored interval is cleared and nothing rotates. */
  lemma {:induction false} TimerExpiresAfterRoundTime(id: LobbyId, l: Lobby)
    requires l.timerLive
    requires l.roundTime >= 1
    ensures l.players != [] ==>
      var r := RunTimer(id, l, l.roundTime);
      && r.lobby == l.(drawer := Some(NextDrawer(l.players, l.drawer)), roundTime := RoundSeconds, chosenWord := "")
      && r.out == Countdown(id, l.roundTime, l.roundTime) + [Emit(Room(id), RoundStart(r.lobby.drawer))]
    ensures l.players == [] ==>
      RunTimer(id, l, l.roundTime)
        == LobbyStep(l.(roundTime := 0, timerLive := false), Countdown(id, l.roundTime, l.roundTime))
    decreases l.roundTime
  {
    var t := l.roundTime;
    if t == 1 {
      var s := TimerTick(id, l);
      assert RunTimer(id, s.lobby, 0).out == [];
      assert Countdown(id, 1, 1) == [Emit(Room(id), TimerUpdate(0))];
    } else {
      var l' := l.(roundTime := t - 1);
      TimerExpiresAfterRoundTime(id, l');
      assert Countdown(id, t, t) == [Emit(Room(id), TimerUpdate(t - 1))] + Countdown(id, t - 1, t - 1);
    }
  }

  /** A round started by `startRound` lasts exactly 120 seconds of the stored
      interval: after 119 the drawer is unchanged with one second left, and
      the 120th hands the turn to the next player. */
  lemma RoundLastsRoundSeconds(id: LobbyId, l: Lobby)
    requires l.players != []
    ensures var s := StartRound(id, l).lobby;
      && RunTimer(id, s, RoundSeconds - 1).lobby == s.(roundTime := 1)
      && RunTimer(id, s, RoundSeconds).lobby.drawer == Some(NextDrawer(l.players, l.drawer))
  {
    var s := StartRound(id, l).lobby;
    TicksBeforeExpiry(id, s, RoundSeconds - 1);
    TimerExpiresAfterRoundTime(id, s);
  }

  /** While an interval of `startTimer` runs beside the stored one, the clock
      goes down by two every second. */
  lemma DoubleCountdown(id: LobbyId, l: Lobby)
    requires l.timerLive
    requires l.roundTime > 2
    ensures LegacyTimerTick(id, TimerTick(id, l).lobby).lobby == l.(roundTime := l.roundTime - 2)
  {
  }
}

=== FILE: scenarios.dfy ===
/**
  Complete runs of the server from start-up: each lemma takes one world of
  the run to the next through `Step`, except that the 119 quiet seconds of
  a countdown are taken at once with `RunTimer`.
 */
module Scenarios {
  import opened Options
  import opened Text
  import opened Lobbies
  import opened Rotation
  import opened Rounds
  import opened Registry
  import opened Properties

  const Ann: Player := Player(1, "Ann")
  const Bob: Player := Player(2, "Bob")

  /** A server whose only lobby is L1, holding `l`, with the given pending
      delayed turns and closed connections. */
  function OnlyL1(l: Lobby, delayed: multiset<LobbyId>, gone: set<ConnId> := {}): World {
    World(map["L1" := l], ["L1"], multiset{}, delayed, gone)
  }

  lemma OnlyL1Valid(l: Lobby, delayed: multiset<LobbyId>, gone: set<ConnId> := {})
    requires UniqueUsernames(l.players)
    requires forall k :: k in delayed ==> k == "L1"
    ensures Valid(OnlyL1(l, delayed, gone))
  {
  }

  /** The first player to join an unseen lobby becomes drawer, a round is
      announced for them and the clock starts at 120 with the stored interval live. */
  lemma AnnOpensLobby()
    ensures Valid(Empty) && Enabled(Empty, JoinLobby("L1", 1, "Ann"))
    ensures Step(Empty, JoinLobby("L1", 1, "Ann"))
         == WorldStep(OnlyL1(Lobby([Ann], Some(1), RoundSeconds, "", true), multiset{}),
                      [Emit(Room("L1"), RoundStart(Some(1))), Emit(Room("L1"), PlayersUpdate([Ann]))])
  {
    JoinCreatesLobby(Empty, "L1", 1, "Ann");
  }

  /** Bob joins; Ann stays drawer and no new round starts. */
  lemma BobJoins()
    ensures var w := OnlyL1(Lobby([Ann], Some(1), RoundSeconds, "", true), multiset{});
      && Valid(w)
      && Step(w, JoinLobby("L1", 2, "Bob")).world == OnlyL1(Lobby([Ann, Bob], Some(1), RoundSeconds, "", true), multiset{})
  {
    var w := OnlyL1(Lobby([Ann], Some(1), RoundSeconds, "", true), multiset{});
    OnlyL1Valid(Lobby([Ann], Some(1), RoundSeconds, "", true), multiset{});
    assert !HasUsername([Ann], "Bob");
    assert OnJoin(w, "L1", 2, "Bob").world.lobbies["L1"].players == [Ann, Bob];
  }

  /** Ann, the drawer, chooses "cat": its length is broadcast, not the word,
      and as the stored interval is live no `startTimer` interval is added. */
  lemma AnnChoosesCat()
    ensures var w := OnlyL1(Lobby([Ann, Bob], Some(1), RoundSeconds, "", true), multiset{});
      && Valid(w)
      && Step(w, ChooseWord("L1", 1, "cat"))
         == WorldStep(OnlyL1(Lobby([Ann, Bob], Some(1), RoundSeconds, "cat", true), multiset{}),
                      [Emit(Room("L1"), WordChosen(3))])
  {
    OnlyL1Valid(Lobby([Ann, Bob], Some(1), RoundSeconds, "", true), multiset{});
  }

  /** Bob's "CAT" wins: the announcement carries the stored word, the lobby
      is unchanged and one delayed turn is pending. */
  lemma BobWinsWithCat()
    ensures var w := OnlyL1(Lobby([Ann, Bob], Some(1), RoundSeconds, "cat", true), multiset{});
      var r := Step(w, SendMessage("L1", "CAT", "Bob"));
      && Valid(w)
      && r.world == OnlyL1(Lobby([Ann, Bob], Some(1), RoundSeconds, "cat", true), multiset{"L1"})
      && |r.out| == 3
      && r.out[2] == Emit(Room("L1"), WinnerAnnouncement("Bob", "cat"))
  {
    OnlyL1Valid(Lobby([Ann, Bob], Some(1), RoundSeconds, "cat", true), multiset{});
    MatchExamples();
  }

  /** Seven seconds after the win the turn passes from Ann to Bob and a
      fresh round starts. */
  lemma DelayedTurnGoesToBob()
    ensures var w := OnlyL1(Lobby([Ann, Bob], Some(1), RoundSeconds, "cat", true), multiset{"L1"});
      && Valid(w)
      && Enabled(w, DelayedNextTurn("L1"))
      && Step(w, DelayedNextTurn("L1")).world == OnlyL1(Lobby([Ann, Bob], Some(2), RoundSeconds, "", true), multiset{})
  {
    OnlyL1Valid(Lobby([Ann, Bob], Some(1), RoundSeconds, "cat", true), multiset{"L1"});
    NextAfterFirstOccurrence([Ann, Bob], 0);
    assert multiset{"L1"} - multiset{"L1"} == multiset{};
  }

  lemma RemoveAnn()
    ensures RemoveConn([Ann, Bob], 1) == [Bob]
  {
    assert [Ann, Bob] == [Ann] + [Bob];
    RemoveConnConcat([Ann], [Bob], 1);
  }

  /** Ann, the drawer, disconnects mid-round: her entry goes, but the drawer,
      the clock and the stored interval stay as they were. */
  lemma DrawerLeavesMidRound()
    ensures var w := OnlyL1(Lobby([Ann, Bob], Some(1), RoundSeconds, "", true), multiset{});
      && Valid(w)
      && Step(w, Disconnect(1)).world == OnlyL1(Lobby([Bob], Some(1), RoundSeconds, "", true), multiset{}, {1})
  {
    OnlyL1Valid(Lobby([Ann, Bob], Some(1), RoundSeconds, "", true), multiset{});
    RemoveAnn();
  }

  /** That round's clock counts down to one second with Ann still drawer;
      the last firing of the stored interval then passes the turn to the
      first remaining player and announces a fresh round. */
  lemma RoundAfterDrawerLeftRotates()
    ensures var l := Lobby([Bob], Some(1), RoundSeconds, "", true);
      RunTimer("L1", l, RoundSeconds - 1).lobby == l.(roundTime := 1)
    ensures var w := OnlyL1(Lobby([Bob], Some(1), 1, "", true), multiset{}, {1});
      && Valid(w)
      && Enabled(w, Tick("L1"))
      && Step(w, Tick("L1"))
         == WorldStep(OnlyL1(Lobby([Bob], Some(2), RoundSeconds, "", true), multiset{}, {1}),
                      [Emit(Room("L1"), TimerUpdate(0)), Emit(Room("L1"), RoundStart(Some(2)))])
  {
    TicksBeforeExpiry("L1", Lobby([Bob], Some(1), RoundSeconds, "", true), RoundSeconds - 1);
    OnlyL1Valid(Lobby([Bob], Some(1), 1, "", true), multiset{}, {1});
    NextWhenAbsent([Bob], Some(1));
  }

  /** An abandoned lobby is not idle for good. After the clock ran out with
      nobody left, Bob joins and stays without a round; his empty message
      matches the empty word and wins, and the delayed turn then hands the
      drawing to him with a fresh stored interval. */
  lemma WinRestartsIdleLobby()
    ensures var w := OnlyL1(Lobby([Bob], Some(1), 0, "", false), multiset{}, {1});
      var r := Step(w, SendMessage("L1", "", "Bob"));
      && Valid(w)
      && r.world == OnlyL1(Lobby([Bob], Some(1), 0, "", false), multiset{"L1"}, {1})
      && Valid(r.world)
      && Enabled(r.world, DelayedNextTurn("L1"))
      && Step(r.world, DelayedNextTurn("L1")).world
         == OnlyL1(Lobby([Bob], Some(2), RoundSeconds, "", true), multiset{}, {1})
  {
    OnlyL1Valid(Lobby([Bob], Some(1), 0, "", false), multiset{}, {1});
    OnlyL1Valid(Lobby([Bob], Some(1), 0, "", false), multiset{"L1"}, {1});
    EmptyWordMatchesOnlyEmptyGuess("");
    NextWhenAbsent([Bob], Some(1));
    assert multiset{"L1"} - multiset{"L1"} == multiset{};
  }
}

=== FILE: sessions.dfy ===
/**
  What closed connections mean for the lobbies. The transport delivers no
  event from a connection after its `disconnect` and never reuses its id, so
  a drawer that is still connected is always listed and always has a live
  stored interval. As a consequence `choose-word` never reaches `startTimer`:
  no interval without a stored handle ever exists.
 */
module Sessions {
  import opened Options
  import opened Lobbies
  import opened Rounds
  import opened Registry
  import opened Properties

  /** No entry belongs to a closed connection; a lobby without a drawer has
      no players; a drawer still connected is listed and has a live stored
      interval. */
  ghost predicate LobbySound(l: Lobby, gone: set<ConnId>) {
    && (forall i :: 0 <= i < |l.players| ==> l.players[i].id !in gone)
    && (l.drawer.None? ==> l.players == [])
    && (l.drawer.Some? && l.drawer.value !in gone ==> IsPlayer(l.players, l.drawer.value) && l.timerLive)
  }

  /** Every lobby is sound and no `startTimer` interval runs. */
  ghost predicate Sound(w: World) {
    && (forall k :: k in w.lobbies ==> LobbySound(w.lobbies[k], w.gone))
    && w.legacy == multiset{}
  }

  /** The server starts sound. */
  lemma EmptySound()
    ensures Sound(Empty)
  {
  }

  /** A connected drawer can choose a word, and then no `startTimer`
      interval is started and the clock is left running as it was. */
  lemma ChooseWordStartsNoTimer(w: World, id: LobbyId, conn: ConnId, word: string)
    requires Sound(w) && conn !in w.gone
    ensures OnChooseWord(w, id, conn, word).world.legacy == multiset{}
    ensures id in w.lobbies && w.lobbies[id].drawer == Some(conn) ==>
      OnChooseWord(w, id, conn, word).world.lobbies[id] == w.lobbies[id].(chosenWord := word)
  {
    if id in w.lobbies && w.lobbies[id].drawer == Some(conn) {
      assert LobbySound(w.lobbies[id], w.gone);
    }
  }

  /** In a sound world a `startTimer` interval never fires. */
  lemma LegacyTickNeverEnabled(w: World, id: LobbyId)
    requires Sound(w)
    ensures !Enabled(w, LegacyTick(id))
  {
  }

  /** Only `disconnect` closes a connection, and it closes exactly its own. */
  lemma OnlyDisconnectCloses(w: World, e: Event)
    requires Valid(w) && Enabled(w, e)
    ensures e.Disconnect? ==> Step(w, e).world.gone == w.gone + {e.conn}
    ensures !e.Disconnect? ==> Step(w, e).world.gone == w.gone
  {
  }

  /** Replacing one lobby by a sound record keeps the world sound. */
  lemma ReplaceSound(w: World, id: LobbyId, l: Lobby)
    requires Sound(w) && LobbySound(l, w.gone)
    ensures Sound(w.(lobbies := w.lobbies[id := l]))
  {
  }

  lemma JoinKeepsSound(w: World, id: LobbyId, conn: ConnId, name: string)
    requires Sound(w) && conn !in w.gone
    ensures Sound(OnJoin(w, id, conn, name).world)
  {
    var before := LobbyOrNew(w, id);
    var after := OnJoin(w, id, conn, name).world.lobbies[id];
    assert LobbySound(before, w.gone);
    assert forall i :: 0 <= i < |after.players| ==> after.players[i].id !in w.gone by {
      forall i | 0 <= i < |after.players| ensures after.players[i].id !in w.gone {
        if i < |before.players| {
          assert after.players[i] == before.players[i];
        }
      }
    }
    if before.drawer.Some? && before.drawer.value !in w.gone {
      var j :| 0 <= j < |before.players| && before.players[j].id == before.drawer.value;
      assert after.players[j] == before.players[j];
    } else if before.drawer.None? {
      assert !HasUsername(before.players, name);
      assert after.players[0] == Player(conn, name);
    }
    assert LobbySound(after, w.gone);
    ReplaceSound(w, id, after);
  }

  /** Every entry left by `RemoveConn` was an entry before. */
  lemma RemoveConnKeepsOnlyEntries(players: seq<Player>, conn: ConnId, i: nat)
    requires i < |RemoveConn(players, conn)|
    ensures RemoveConn(players, conn)[i] in players
  {
    var r := RemoveConn(players, conn);
    RemoveConnContents(players, conn);
    assert r[i] in multiset(r);
    assert multiset(players)[r[i]] > 0;
  }

  /** An entry of another connection survives `RemoveConn`. */
  lemma RemoveConnKeepsOthers(players: seq<Player>, conn: ConnId, j: nat)
    requires j < |players| && players[j].id != conn
    ensures players[j] in RemoveConn(players, conn)
  {
    RemoveConnContents(players, conn);
    assert players[j] in multiset(players);
    assert multiset(RemoveConn(players, conn))[players[j]] > 0;
  }

  /** Removing a closed connection's entries keeps a lobby sound for the
      enlarged set of closed connections. */
  lemma RemoveConnKeepsSound(l: Lobby, conn: ConnId, gone: set<ConnId>)
    requires LobbySound(l, gone)
    ensures LobbySound(l.(players := RemoveConn(l.players, conn)), gone + {conn})
  {
    var r := RemoveConn(l.players, conn);
    forall i | 0 <= i < |r| ensures r[i].id !in gone + {conn} {
      RemoveConnKeepsOnlyEntries(l.players, conn, i);
    }
    if l.drawer.Some? && l.drawer.value !in gone + {conn} {
      var j :| 0 <= j < |l.players| && l.players[j].id == l.drawer.value;
      RemoveConnKeepsOthers(l.players, conn, j);
    }
  }

  lemma DisconnectKeepsSound(w: World, conn: ConnId)
    requires Valid(w) && Sound(w)
    ensures Sound(OnDisconnect(w, conn).world)
  {
    var w' := OnDisconnect(w, conn).world;
    forall k | k in w'.lobbies ensures LobbySound(w'.lobbies[k], w'.gone) {
      RemoveConnKeepsSound(w.lobbies[k], conn, w.gone);
    }
  }

  lemma TickKeepsSound(w: World, id: LobbyId)
    requires Sound(w) && id in w.lobbies && w.lobbies[id].timerLive
    ensures Sound(OnTick(w, id).world)
  {
    var l := w.lobbies[id];
    assert LobbySound(l, w.gone);
    ReplaceSound(w, id, TimerTick(id, l).lobby);
  }

  lemma DelayedNextTurnKeepsSound(w: World, id: LobbyId)
    requires Sound(w) && id in w.lobbies && id in w.delayed
    ensures Sound(OnDelayedNextTurn(w, id).world)
  {
    var l := w.lobbies[id];
    assert LobbySound(l, w.gone);
    ReplaceSound(w, id, NextTurn(id, l).lobby);
  }

  /** Every transition of a sound world gives a sound world, so in every run
      of the server that starts from `Empty` no `startTimer` interval exists. */
  lemma StepKeepsSound(w: World, e: Event)
    requires Valid(w) && Sound(w) && Enabled(w, e)
    ensures Sound(Step(w, e).world)
  {
    match e
    case JoinLobby(id, conn, name) => JoinKeepsSound(w, id, conn, name);
    case ChooseWord(id, conn, word) =>
      if id in w.lobbies && w.lobbies[id].drawer == Some(conn) {
        ChooseWordStartsNoTimer(w, id, conn, word);
        ReplaceSound(w, id, w.lobbies[id].(chosenWord := word));
      }
    case Disconnect(conn) => DisconnectKeepsSound(w, conn);
    case SendMessage(_, _, _) =>
    case Tick(id) => TickKeepsSound(w, id);
    case LegacyTick(id) => LegacyTickNeverEnabled(w, id);
    case DelayedNextTurn(id) => DelayedNextTurnKeepsSound(w, id);
    case StartDrawing(_, _, _, _) =>
    case Drawing(_, _, _, _) =>
  }

  /** The world after delivering `es` in order, or `None` when one of them
      cannot be delivered where it arrives. */
  function Run(w: World, es: seq<Event>): Option<World>
    requires Valid(w)
    decreases |es|
  {
    if es == [] then Some(w)
    else if !Enabled(w, es[0]) then None
    else
      StepPreservesValid(w, es[0]);
      Run(Step(w, es[0]).world, es[1..])
  }

  /** Every world a run reaches from a sound world is sound. */
  lemma {:induction false} RunKeepsSound(w: World, es: seq<Event>)
    requires Valid(w) && Sound(w)
    ensures Run(w, es).Some? ==> Sound(Run(w, es).value)
    decreases |es|
  {
    if es != [] && Enabled(w, es[0]) {
      StepPreservesValid(w, es[0]);
      StepKeepsSound(w, es[0]);
      RunKeepsSound(Step(w, es[0]).world, es[1..]);
    }
  }

  /** Every world reached from start-up is sound. In particular no
      `startTimer` interval ever runs, so the extra countdown of
      `choose-word` is unreachable, and every lobby without a drawer is
      empty, so a join into a drawerless lobby always adds the joiner. */
  lemma NoStartTimerInAnyRun(es: seq<Event>)
    ensures Valid(Empty)
    ensures Run(Empty, es).Some? ==> Sound(Run(Empty, es).value)
    ensures Run(Empty, es).Some? ==> Run(Empty, es).value.legacy == multiset{}
  {
    EmptySound();
    RunKeepsSound(Empty, es);
  }
}

=== FILE: text.dfy ===
/**
  Case folding and the guess comparison of the chat handler. Lower-casing is
  modelled for the ASCII letters A-Z only; every other character is kept as is.
 */
module Text {

  predicate IsUpper(c: char) {
    'A' <= c <= 'Z'
  }

  /** Lower-cases one ASCII capital letter and leaves any other character alone. */
  function LowerChar(c: char): char {
    if IsUpper(c) then (c as int + 32) as char else c
  }

  /** `toLowerCase` on a whole string, character by character. */
  function Lower(s: string): (r: string)
    ensures |r| == |s|
    ensures forall i :: 0 <= i < |s| ==> r[i] == LowerChar(s[i])
  {
    if s == [] then [] else [LowerChar(s[0])] + Lower(s[1..])
  }

  /** Two characters that are equal up to the case of an ASCII letter,
      stated without reference to `LowerChar`. */
  predicate SameLetter(a: char, b: char) {
    || a == b
    || (IsUpper(a) && b as int == a as int + 32)
    || (IsUpper(b) && a as int == b as int + 32)
  }

  /** The winning test of the chat handler: the guess and the stored word are
      equal after lower-casing both. There is no trimming and no guard for an
      empty word. */
  function Matches(word: string, guess: string): (r: bool)
    ensures r ==> |guess| == |word|
    ensures guess == word ==> r
    ensures word == "" ==> (r <==> guess == "")
  {
    Lower(guess) == Lower(word)
  }

  lemma LowerCharAgree(a: char, b: char)
    ensures LowerChar(a) == LowerChar(b) <==> SameLetter(a, b)
  {
  }

  /** A guess wins exactly when it has the word's length and agrees with it
      letter by letter up to ASCII case. */
  lemma MatchesIffSameLetters(word: string, guess: string)
    ensures Matches(word, guess) <==>
      |guess| == |word| && forall i :: 0 <= i < |guess| ==> SameLetter(guess[i], word[i])
  {
    if Matches(word, guess) {
      forall i | 0 <= i < |guess|
        ensures SameLetter(guess[i], word[i])
      {
        assert Lower(guess)[i] == Lower(word)[i];
        LowerCharAgree(guess[i], word[i]);
      }
    }
    if |guess| == |word| && forall i :: 0 <= i < |guess| ==> SameLetter(guess[i], word[i]) {
      forall i | 0 <= i < |guess|
        ensures Lower(guess)[i] == Lower(word)[i]
      {
        LowerCharAgree(guess[i], word[i]);
      }
      assert Lower(guess) == Lower(word);
    }
  }

  /** An empty stored word is matched by the empty guess and by nothing else. */
  lemma EmptyWordMatchesOnlyEmptyGuess(guess: string)
    ensures Matches("", guess) <==> guess == ""
  {
    assert |Lower(guess)| == |guess|;
  }

  /** Case is ignored but surrounding whitespace is not. */
  lemma MatchExamples()
    ensures Matches("Apple", "apple")
    ensures !Matches("Apple", "Apple ")
    ensures Matches("cat", "CAT")
  {
    MatchesIffSameLetters("Apple", "apple");
    MatchesIffSameLetters("Apple", "Apple ");
    MatchesIffSameLetters("cat", "CAT");
  }
}
